=== FILE: README.md ===
# RSVP reader: pacing engine and text helpers

A Dafny model of the rapid serial visual presentation reader in `script.js`.
The script has two halves. The loader page takes pasted text (only trimmed) or
the text extracted from a PDF (whitespace-normalised by `sanitize`), marks
chapter headings, and stores the text. The reader page splits the stored text
into words and shows them one at a time. The model covers the following:

- the loader's pure helpers `sanitize` and `detectChapters`;
- the reader's tokenisation;
- the pivot calculation and the per-mode rendering;
- the sentence-end delay and the progress percentage;
- the playback state machine: the `next` tick and the pause button.

The browser is abstracted away:

- The DOM output becomes a `View` datatype.
- `localStorage` becomes the `persisted` field of the state.
- The progress-bar width becomes the `bar` field.
- The timer queue becomes the single `pending` slot, which holds the delay of
  the one scheduled call of `next`.

Modules, one per file:

- `Wrappers` (`wrappers.dfy`): the `Option` datatype.
- `Strings` (`strings.dfy`): JavaScript string built-ins. These are the `\s`
  class, `trim`, `split` on one character, `join`, and substring search. It
  also holds two reference definitions: `WsWords`, the pieces of a text
  between whitespace characters, and `Squeeze`, which replaces every run of
  one character by a single copy.
- `Loader` (`loader.dfy`): `sanitize`.
- `Chapters` (`chapters.dfy`): `detectChapters`.
- `Tokens` (`tokens.dfy`): `text.split(" ").filter(Boolean)`.
- `Render` (`render.dfy`): `pivotIndex` and `renderWord`.
- `Pacing` (`pacing.dfy`): the state, `next`, the timer firing, the pause
  button, and opening the page.
- `Traces` (`traces.dfy`): event sequences (timer ticks and button clicks) and
  the properties of whole sessions.

Where the code's behaviour might surprise a reader, the model follows the code:

- Pasted text is only trimmed (script.js:46, 59); `sanitize` runs only on PDF
  text (script.js:42, 49). So a pasted text with double spaces or line breaks
  is stored as it is, and joining the reader's tokens does not give it back.
- Tokenisation splits on `" "` only (script.js:79). A line break in pasted
  text therefore glues its neighbours into one token: `"end.\nNext"` is shown
  as one word and gets no sentence-end pause
  (`Traces.LineBreakGluesWords`).
- `sanitize` turns every newline into a space. `detectChapters` on PDF text
  therefore sees a single line, which is a heading only if it mentions a
  chapter or is longer than 60 characters.
- The stored start position is not clamped. A position past the end makes the
  first `next` pause without showing anything (`Traces.StartPastEndPauses`).
- The pause button is a toggle, not an idempotent pause.
- Pausing does not cancel the pending timer. That timer later fires into the
  paused reader and only disappears (`Pacing.Fire`). Resuming calls `next` at
  once. While words remain, `next` replaces any timer still pending. Past the
  last word it returns (script.js:130-134) before its `clearTimeout`
  (script.js:142), so a timer still pending survives the resume. Either way
  at most one timer is outstanding.
- A text with no words pauses on the first `next`. No progress is written and
  no 100% is reported.
- The end-of-words branch does not update the progress. So the bar never
  reaches 100%, and the stored index stays at the last word shown.
- The stored index is the index of the word on screen (it is written before
  the increment). Reopening the page therefore shows that word again.
- Progress is written on every shown word, not when pausing.
- No guard exists against a non-positive speed. The model takes the speed as a
  positive integer.

## Model

| member | source | states |
|---|---|---|
| Strings.TrimStart | script.js:16 | the result is the suffix left after the maximal leading whitespace run; only whitespace is removed |
| Strings.TrimEnd | script.js:16 | the result is the prefix left before the maximal trailing whitespace run; only whitespace is removed |
| Strings.Trim | script.js:16 | `trim` yields a contiguous piece of the input that neither starts nor ends with whitespace; everything outside it is whitespace |
| Strings.Split | script.js:79 | `split(" ")` pieces contain no separator, there is at least one, and joining them with the separator gives the input back |
| Strings.ConcatSplit | script.js:79 | splitting loses exactly the separators: the pieces, concatenated, are the input with the separator removed, in order |
| Strings.Contains | script.js:24 | the literal-alternative regex test is true exactly when the pattern occurs at some position of the line |
| Strings.TrimStartKeep | script.js:16 | once the text has a non-whitespace character, whatever follows it is kept by the left trim |
| Strings.WsWordsPlain | script.js:16 | the pieces between whitespace characters are non-empty and hold no whitespace |
| Strings.SpacedJoinsWords | script.js:16 | rebuilding a text word by word with one space between words gives exactly its words joined by single spaces |
| Strings.SplitJoin | script.js:20 | splitting a join of separator-free pieces gives the pieces back, so a split is determined by its join |
| Loader.Collapse | script.js:16 | `replace(/\s+/g, " ")` leaves only single spaces as whitespace, keeps every other character in order, and keeps emptiness and whether the text starts with whitespace |
| Loader.CollapseSplice | script.js:16 | a whitespace run between two non-whitespace characters becomes one space in place: `Collapse(a + w + b) == Collapse(a) + " " + Collapse(b)` |
| Loader.CollapseRun | script.js:16 | a whitespace run at the start of a text, followed by a word, becomes one space |
| Loader.TrimCollapsed | script.js:16 | trimming a collapsed text leaves it collapsed |
| Loader.CollapseWords | script.js:16 | the collapsed text is the text's words joined by single spaces, with one space before them if the text starts with whitespace and, when there is at least one word, one after them if the text ends with whitespace; an all-whitespace text collapses to a single space |
| Loader.CollapseExample | script.js:16 | the run " \t\n " between "a" and "b" becomes one space |
| Loader.Sanitize | script.js:15-17 | `sanitize` output has no leading or trailing whitespace, no whitespace other than `' '`, never two adjacent spaces, and keeps every non-whitespace character in order |
| Loader.SanitizeJoinsWords | script.js:15-17 | `sanitize(t)` is exactly the words of `t`, cut at every whitespace character, joined by single spaces |
| Loader.SanitizeExample | script.js:15-17 | `sanitize("a \t\n b")` is `"a b"` |
| Loader.CollapseFixesCollapsed | script.js:16 | collapsing a text whose whitespace runs are already single spaces changes nothing |
| Loader.SanitizeFixedPoints | script.js:15-17 | `sanitize` leaves a text unchanged if and only if the text is already in normal form |
| Loader.SanitizeIdempotent | script.js:15-17 | `sanitize(sanitize(t)) == sanitize(t)` |
| Chapters.SplitLines | script.js:20 | `split(/\n+/)` pieces hold no newline; only the first or last piece can be empty; concatenated they are the text without its newlines |
| Chapters.SplitLinesJoin | script.js:20 | the cuts fall exactly at the newline runs: the lines joined with `"\n"` are the text with every newline run squeezed to one newline |
| Chapters.SplitLinesIsSplit | script.js:20 | `split(/\n+/)` equals `split("\n")` of the squeezed text |
| Chapters.SplitLinesUnique | script.js:20 | any newline-free pieces whose join is the squeezed text are the lines |
| Chapters.SplitLinesOneLine | script.js:20 | a text without newlines is one line |
| Chapters.SplitLinesExample | script.js:20 | `"a\n\nb\n"` splits into `["a", "b", ""]` |
| Chapters.IsChapterLine | script.js:24 | a line is a heading exactly when "chapter", "CHAPTER" or "Chapter" occurs at some position in it, or it is longer than 60 characters |
| Chapters.ChapterLineExamples | script.js:24 | each of the three spellings is found: "Chapter" at the start of a line, "CHAPTER" and "chapter" inside one |
| Chapters.ChapterLineCaseSensitive | script.js:24 | the test is case-sensitive: "chaPter" is not a heading |
| Chapters.ConcatLine | script.js:20 | one split step (the piece before the first newline run, then the rest) loses exactly the newlines |
| Chapters.ScanLines | script.js:21-27 | markers for the lines from a position on are strictly increasing, each line is marked if and only if it passes the heading test, and each title is the trimmed line |
| Chapters.DetectChapters | script.js:19-30 | `detectChapters` marks exactly the heading lines of the `\n+`-split text, in increasing line order, each titled by its trimmed line |
| Tokens.NonEmptyParts | script.js:79 | `filter(Boolean)` keeps only non-empty pieces and loses no character |
| Tokens.NonEmptyPartsAppend | script.js:79 | filtering distributes over concatenation, so order is preserved |
| Tokens.NonEmptyPartsFrom | script.js:79 | every kept piece is one of the split pieces |
| Tokens.Tokenize | script.js:79 | every token is non-empty and contains no space |
| Tokens.TokensKeepText | script.js:79 | the tokens, concatenated, are the text without its spaces: nothing is lost or reordered |
| Tokens.TokenizeStep | script.js:79 | tokenising a text with a space gives the non-empty piece before the first space, then the tokens after it |
| Tokens.JoinTokenize | script.js:79 | for a text whose spaces are single separators, joining its tokens with `" "` gives the text back |
| Tokens.TokenizeJoin | script.js:79 | tokenising non-empty, space-free words joined with `" "` gives the words back |
| Tokens.TokenizeOneWord | script.js:79 | a non-empty text without a space is a single token |
| Tokens.TokenizeSanitized | script.js:79 | the reader's tokens of a sanitised text are the words of the original text, cut at every whitespace character |
| Tokens.SanitizedRoundTrip | script.js:42 | for every output of `sanitize` (the PDF path), joining the reader's tokens with `" "` gives that text back |
| Render.PivotIndex | script.js:85-91 | the pivot offset is in [0,4], lies inside every non-empty word, and is 0 exactly for words of length at most 1 |
| Render.PivotClosedForm | script.js:85-91 | the four length thresholds 1, 5, 9, 13 step every four characters: the offset is (length + 2) / 4, capped at 4 |
| Render.PivotMonotone | script.js:85-91 | the pivot offset is monotone non-decreasing in word length |
| Render.SliceTo | script.js:106 | `slice(0, n)` is the prefix of length n, clamped at the end of the word |
| Render.SliceFrom | script.js:108 | `slice(n)` is the suffix from n, empty once n passes the end |
| Render.CharAt | script.js:107 | `word[p]` is a character exactly when p is inside the word, and is then that character |
| Render.RenderWord | script.js:93-115 | highlight and underline wrap the whole word; pivot splits it as `before + [c] + after == word` with `before` as long as the pivot offset and `c == word[p]`; any other mode leaves the box unchanged; the empty word has an undefined pivot |
| Render.RenderShowsWholeWord | script.js:93-115 | in each of the three modes a non-empty word appears whole and unaltered |
| Render.PivotOfReading | script.js:105-108 | "reading" splits as ("re", 'a', "ding") |
| Pacing.IsSentenceEnd | script.js:117-119 | the `/[.!?]$/` test is true exactly when the word's last character is `.`, `!` or `?` |
| Pacing.SearchEndMark | script.js:118 | the regular-expression search from a position succeeds exactly when some later position holds one of the three marks and is the last |
| Pacing.Delay | script.js:144-146 | the delay is positive; delay × wpm is 60000 ms, or 132000 ms (factor 2.2) exactly when the word ends in `.`, `!` or `?` |
| Pacing.DelayIsQuotient | script.js:144-146 | the delay is the word's pause budget (60000 ms, or 132000 ms after a sentence end) divided by the speed |
| Pacing.DelayShrinksWithSpeed | script.js:144 | a higher speed never gives a longer delay |
| Pacing.Percent | script.js:122 | percent × total = 100 × index, and the percent is in [0,100) for every index before the end |
| Pacing.Open | script.js:78-83 | the opened reader's words are the tokens of the stored text (`split(" ").filter(Boolean)`): space-free tokens that concatenate to the stored text without its spaces; it starts at the stored position, running, with no timer and nothing written |
| Pacing.Next | script.js:127-149 | paused: no change. Past the end: pauses, nothing else changes, no render. Otherwise: shows `words[index]` in the current mode, writes the pre-increment index with a percentage below 100, advances by exactly 1, and leaves exactly one pending timer, for this word's delay at the current speed |
| Pacing.Fire | script.js:148 | the timer firing consumes the pending timer and calls `next`; a stale timer firing into a paused reader only disappears; with no timer nothing happens |
| Pacing.Toggle | script.js:151-161 | pausing only sets the flag and keeps the pending timer; resuming shows the word at the position at once, rendered in the current mode, writes its index and percentage, keeps the word list, and sets a fresh timer for its delay; resuming past the end leaves the state as it was |
| Pacing.Start | script.js:167 | opening the page shows the word at the stored position with a timer for its delay, or, when the position is past the end, pauses and shows and schedules nothing |
| Traces.ApplyAdvances | script.js:127-161 | one event shows at most the word at the position and advances past exactly the words it shows |
| Traces.RunShowsInOrder | script.js:127-161 | from any start k within the words, every sequence of ticks and clicks keeps the position within the words, and the words shown are exactly `words[k..final]`, in order, none skipped or repeated |
| Traces.ApplyKeepsConsistent | script.js:121-149 | one event keeps the stored index and bar in step with the position |
| Traces.RunKeepsConsistent | script.js:121-135 | over any run the stored index is the word on screen, the bar shows its percentage, and the bar never reaches 100% |
| Traces.OpenIsConsistent | script.js:78-83 | a freshly opened reader with a start position within the words is consistent |
| Traces.TicksAdvanceOneEach | script.js:136-148 | while playing, each tick shows exactly the next word and advances by exactly one, whatever speed and mode each tick reads |
| Traces.TickAtEndPauses | script.js:130-135 | the tick after the last word pauses, shows nothing, schedules nothing, and leaves the position and stored index alone |
| Traces.PauseThenResume | script.js:151-161 | pause then resume shows the word after the last one shown, with a timer at the speed set when resuming |
| Traces.PauseIsNotIdempotent | script.js:151-152 | two clicks while words remain leave the reader running: pause is a toggle |
| Traces.SpeedOnlyAffectsTimer | script.js:144 | the speed changes only the scheduled delay, never the word shown, the position or the stored progress |
| Traces.EmptyTextPausesAtOnce | script.js:127-135 | a text of only spaces pauses on the first `next` without showing or storing anything |
| Traces.StartPastEndPauses | script.js:81 | an unclamped stored position past the end pauses on the first `next` and shows nothing |
| Traces.StartResumesAtStoredIndex | script.js:81 | a stored position within the words is where reading resumes: that word is shown first |
| Traces.LineBreakGluesWords | script.js:79 | "end.\nNext" is one token and is not a sentence end |
| Traces.HelloWorldTokens | script.js:79 | "Hello world. This is a test" tokenises to its six words |
| Traces.HelloWorldJoined | script.js:79 | the six words joined with spaces give back the sentence |
| Traces.HelloWorldDelays | script.js:144-146 | at 300 wpm the delay is 200 ms after "Hello" and 440 ms after "world." |

## Left out

- Page detection and all DOM access (script.js:4-5, 11-13, 71-76). The `innerHTML` markup and the button class and label changes (script.js:98-114, 132-133, 154-158) are UI only. The render is a `View` datatype.
- `localStorage` (script.js:59-61, 78, 81, 124) is external storage. The model keeps only the index written in this session, as `persisted`, and takes the stored text and start index as parameters.
- `loadPDF` (script.js:32-43) depends on the external pdf.js library and asynchronous I/O. Only its `sanitize` call is modelled.
- The loader's start button (script.js:45-64) is browser plumbing: the `alert` on empty input, `JSON.stringify`, and the redirect.
- Real time is not modelled. `setTimeout`/`clearTimeout` are one `pending` slot holding the delay. A tick event stands for that timer firing.
- `parseInt` of the speed and of the stored progress is not modelled. This includes NaN, negative and non-finite results. The start index is a `nat`.
- Pacing.Delay: the speed is a positive integer (`Wpm`). The source divides by whatever `parseInt` returns, including 0 and NaN, without a guard.
- Pacing.Delay: uses exact real arithmetic, not IEEE doubles. The factor 2.2 is written as `22.0 / 10.0`.
- Pacing.Percent: exact reals, not a float. The `%` string written to the bar's style is not modelled. The division is only defined for a non-empty word list, which is the only case in which the code reaches it.
- The font-size handler (script.js:163-165) is cosmetic.
- JavaScript strings are UTF-16. Dafny characters are Unicode scalar values. So the lengths in `line.length > 60`, `pivotIndex`, `slice` and `word[p]` differ for characters outside the Basic Multilingual Plane.
- `IsWs` lists the ECMAScript `\s` set for Unicode 15. Later Unicode versions may add space separators.

=== FILE: chapters.dfy ===
/** The loader's chapter heuristic (script.js:19-30): the text is cut at runs
    of newlines and every line that looks like a heading becomes a marker. */
module Chapters {
  import opened Strings

  /** No piece of `lines` contains a newline. */
  predicate NoNewlines(lines: seq<string>) {
    forall k :: 0 <= k < |lines| ==> '\n' !in lines[k]
  }

  /** Every piece of `lines` except possibly the first and the last is non-empty. */
  predicate InnerNonEmpty(lines: seq<string>) {
    forall k :: 0 < k < |lines| - 1 ==> |lines[k]| > 0
  }

  /** One step of `SplitLines` loses exactly the newlines: the piece before
      the first newline, then the pieces after the newline run. */
  lemma ConcatLine(head: string, tail: string, rest: seq<string>)
    requires '\n' !in head
    requires Concat(rest) == Without(DropLeading(tail, '\n'), '\n')
    ensures Concat([head] + rest) == Without(head + ['\n'] + tail, '\n')
  {
    ConcatCons(head, rest);
    WithoutDropLeading(tail, '\n');
    WithoutSeparator(head, tail, '\n');
  }

  lemma ConsNoNewlines(head: string, rest: seq<string>)
    requires '\n' !in head && NoNewlines(rest)
    ensures NoNewlines([head] + rest)
  {
    var lines := [head] + rest;
    forall k | 0 < k < |lines|
      ensures lines[k] == rest[k - 1]
    {
    }
  }

  lemma ConsInnerNonEmpty(head: string, rest: seq<string>)
    requires |rest| >= 1 && InnerNonEmpty(rest)
    requires |rest| > 1 ==> |rest[0]| > 0
    ensures InnerNonEmpty([head] + rest)
  {
    var lines := [head] + rest;
    forall k | 0 < k < |lines|
      ensures lines[k] == rest[k - 1]
    {
    }
  }

  /** `text.split(/\n+/)`: the pieces between maximal runs of newlines. Only a
      leading or a trailing run yields an empty piece (the first or the last);
      the pieces, concatenated, are the text without its newlines. */
  function SplitLines(s: string): (lines: seq<string>)
    ensures |lines| >= 1
    ensures NoNewlines(lines)
    ensures |s| > 0 && s[0] != '\n' ==> |lines[0]| > 0
    ensures InnerNonEmpty(lines)
    ensures Concat(lines) == Without(s, '\n')
    decreases |s|
  {
    if '\n' !in s then
      WithoutAbsent(s, '\n');
      [s]
    else
      var i := IndexOf(s, '\n');
      var head, tail := s[..i], s[i + 1..];
      var d := DropLeading(tail, '\n');
      var rest := SplitLines(d);
      assert |rest| > 1 ==> |d| > 0;
      ConsNoNewlines(head, rest);
      ConsInnerNonEmpty(head, rest);
      SplitAround(s, i);
      ConcatLine(head, tail, rest);
      [head] + rest
  }

  /** The cuts fall exactly at the newline runs: joined with single newlines,
      the lines are the text with every newline run squeezed to one. */
  lemma {:induction false} SplitLinesJoin(s: string)
    ensures JoinWith(SplitLines(s), '\n') == Squeeze(s, '\n')
    decreases |s|
  {
    if '\n' !in s {
      SqueezeFree(s, "", '\n');
      assert s + "" == s;
    } else {
      var i := IndexOf(s, '\n');
      var head, tail := s[..i], s[i + 1..];
      var d := DropLeading(tail, '\n');
      var rest := SplitLines(d);
      assert SplitLines(s) == [head] + rest;
      SplitLinesJoin(d);
      JoinCons(head, rest, '\n');
      SplitAround(s, i);
      SqueezeAt(head, tail, '\n');
    }
  }

  /** `split(/\n+/)` is `split("\n")` of the text with its newline runs
      squeezed to single newlines. */
  lemma SplitLinesIsSplit(s: string)
    ensures SplitLines(s) == Split(Squeeze(s, '\n'), '\n')
  {
    SplitLinesJoin(s);
    SplitJoin(SplitLines(s), '\n');
  }

  /** A text without newlines is one line. */
  lemma SplitLinesOneLine(s: string)
    requires '\n' !in s
    ensures SplitLines(s) == [s]
  {
  }

  /** The lines are the only newline-free pieces whose join is the squeezed
      text. */
  lemma SplitLinesUnique(s: string, lines: seq<string>)
    requires |lines| >= 1 && NoNewlines(lines)
    requires JoinWith(lines, '\n') == Squeeze(s, '\n')
    ensures SplitLines(s) == lines
  {
    SplitLinesIsSplit(s);
    SplitJoin(lines, '\n');
  }

  /** A newline run, however long, is one cut, and a trailing newline leaves
      an empty last line. */
  lemma SplitLinesExample()
    ensures SplitLines("a\n\nb\n") == ["a", "b", ""]
  {
    SqueezeExample();
    JoinExample();
    SplitLinesUnique("a\n\nb\n", ["a", "b", ""]);
  }

  lemma JoinExample()
    ensures JoinWith(["a", "b", ""], '\n') == "a\nb\n"
    ensures NoNewlines(["a", "b", ""])
  {
  }

  lemma SqueezeExample()
    ensures Squeeze("a\n\nb\n", '\n') == "a\nb\n"
  {
    assert DropLeading("\nb\n", '\n') == "b\n";
    assert DropLeading("", '\n') == "";
  }

  /** A chapter marker: the line's position among the split lines, and the
      trimmed line as its title. */
  datatype Chapter = Chapter(index: nat, title: string)

  /** The heading test of script.js:24: the line mentions "chapter" in one of
      three spellings, or is longer than 60 characters. */
  function IsChapterLine(line: string): (b: bool)
    ensures b <==> || (exists i :: OccursAt(line, "chapter", i))
                   || (exists i :: OccursAt(line, "CHAPTER", i))
                   || (exists i :: OccursAt(line, "Chapter", i))
                   || |line| > 60
  {
    Contains(line, "chapter") || Contains(line, "CHAPTER") || Contains(line, "Chapter")
    || |line| > 60
  }

  /** Each of the three spellings is found, at the start of the line or
      inside it. */
  lemma ChapterLineExamples()
    ensures IsChapterLine("Chapter 1")
    ensures IsChapterLine("THE CHAPTER ENDS")
    ensures IsChapterLine("a chapter")
  {
    assert Contains("a chapter", "chapter") by {
      assert OccursAt("a chapter", "chapter", 2);
    }
    assert Contains("Chapter 1", "Chapter") by {
      assert OccursAt("Chapter 1", "Chapter", 0);
    }
    assert Contains("THE CHAPTER ENDS", "CHAPTER") by {
      assert OccursAt("THE CHAPTER ENDS", "CHAPTER", 4);
    }
  }

  /** The test is case-sensitive: a mixed-case spelling is not a heading. */
  lemma ChapterLineCaseSensitive()
    ensures !IsChapterLine("chaPter")
  {
    SameLengthContains("chaPter", "chapter");
    SameLengthContains("chaPter", "CHAPTER");
    SameLengthContains("chaPter", "Chapter");
    assert "chaPter"[3] != "chapter"[3] && "chaPter"[1] != "CHAPTER"[1]
        && "chaPter"[0] != "Chapter"[0];
  }

  /** The marker `c` points at a line of `lines` that passes the heading
      test, and carries that line, trimmed, as its title. */
  predicate ValidMarker(lines: seq<string>, c: Chapter) {
    c.index < |lines| && IsChapterLine(lines[c.index]) && c.title == Trim(lines[c.index])
  }

  /** Every marker of `cs` is valid and points at or after line `from`. */
  predicate MarksHeadings(lines: seq<string>, from: nat, cs: seq<Chapter>) {
    forall k :: 0 <= k < |cs| ==> from <= cs[k].index && ValidMarker(lines, cs[k])
  }

  /** The marker indices of `cs` are strictly increasing. */
  predicate Ascending(cs: seq<Chapter>) {
    forall k, m :: 0 <= k < m < |cs| ==> cs[k].index < cs[m].index
  }

  /** Some marker of `cs` points at line `i`. */
  predicate Marked(cs: seq<Chapter>, i: int) {
    exists k :: 0 <= k < |cs| && cs[k].index == i
  }

  /** Every heading line of `lines` at or after `from` has a marker in `cs`. */
  predicate MarksAllHeadings(lines: seq<string>, from: nat, cs: seq<Chapter>) {
    forall i :: from <= i < |lines| && IsChapterLine(lines[i]) ==> Marked(cs, i)
  }

  lemma ConsMarker(c: Chapter, rest: seq<Chapter>, k: nat)
    requires 0 < k <= |rest|
    ensures ([c] + rest)[k] == rest[k - 1]
  {
  }

  /** The markers of the lines after `from`, preceded by a marker for line
      `from` itself, are the markers of the lines from `from` on. */
  lemma PrependMarker(lines: seq<string>, from: nat, c: Chapter, rest: seq<Chapter>)
    requires from < |lines| && c.index == from && ValidMarker(lines, c)
    requires MarksHeadings(lines, from + 1, rest) && Ascending(rest)
    requires MarksAllHeadings(lines, from + 1, rest)
    ensures MarksHeadings(lines, from, [c] + rest)
    ensures Ascending([c] + rest)
    ensures MarksAllHeadings(lines, from, [c] + rest)
  {
    PrependValid(lines, from, c, rest);
    PrependAscending(from, c, rest, |lines|);
    PrependComplete(lines, from, c, rest);
  }

  lemma PrependValid(lines: seq<string>, from: nat, c: Chapter, rest: seq<Chapter>)
    requires c.index == from && ValidMarker(lines, c)
    requires MarksHeadings(lines, from + 1, rest)
    ensures MarksHeadings(lines, from, [c] + rest)
  {
    forall k | 0 <= k < |rest| + 1
      ensures from <= ([c] + rest)[k].index && ValidMarker(lines, ([c] + rest)[k])
    {
      if k > 0 { ConsMarker(c, rest, k); }
    }
  }

  lemma PrependAscending(from: nat, c: Chapter, rest: seq<Chapter>, n: nat)
    requires c.index == from && Ascending(rest)
    requires forall k :: 0 <= k < |rest| ==> from + 1 <= rest[k].index
    ensures Ascending([c] + rest)
  {
    forall k, m | 0 <= k < m < |rest| + 1
      ensures ([c] + rest)[k].index < ([c] + rest)[m].index
    {
      ConsMarker(c, rest, m);
      if k > 0 { ConsMarker(c, rest, k); }
    }
  }

  lemma PrependComplete(lines: seq<string>, from: nat, c: Chapter, rest: seq<Chapter>)
    requires c.index == from
    requires MarksAllHeadings(lines, from + 1, rest)
    ensures MarksAllHeadings(lines, from, [c] + rest)
  {
    var cs := [c] + rest;
    forall i | from <= i < |lines| && IsChapterLine(lines[i])
      ensures Marked(cs, i)
    {
      if i == from {
        assert cs[0].index == i;
      } else {
        var k :| 0 <= k < |rest| && rest[k].index == i;
        ConsMarker(c, rest, k + 1);
        assert cs[k + 1].index == i;
      }
    }
  }

  /** A line that is not a heading adds no marker. */
  lemma SkipLine(lines: seq<string>, from: nat, rest: seq<Chapter>)
    requires from < |lines| && !IsChapterLine(lines[from])
    requires MarksHeadings(lines, from + 1, rest)
    requires MarksAllHeadings(lines, from + 1, rest)
    ensures MarksHeadings(lines, from, rest)
    ensures MarksAllHeadings(lines, from, rest)
  {
  }

  /** The markers for `lines[from..]`: indices strictly increasing, each line
      marked exactly when it passes the heading test, titled by its trim. */
  function ScanLines(lines: seq<string>, from: nat): (cs: seq<Chapter>)
    requires from <= |lines|
    ensures MarksHeadings(lines, from, cs)
    ensures Ascending(cs)
    ensures MarksAllHeadings(lines, from, cs)
    decreases |lines| - from
  {
    if from == |lines| then []
    else
      var rest := ScanLines(lines, from + 1);
      if IsChapterLine(lines[from]) then
        var c := Chapter(from, Trim(lines[from]));
        PrependMarker(lines, from, c, rest);
        [c] + rest
      else
        SkipLine(lines, from, rest);
        rest
  }

  /** `detectChapters` (script.js:19-30). */
  function DetectChapters(text: string): (cs: seq<Chapter>)
    ensures MarksHeadings(SplitLines(text), 0, cs)
    ensures Ascending(cs)
    ensures MarksAllHeadings(SplitLines(text), 0, cs)
  {
    ScanLines(SplitLines(text), 0)
  }
}

=== FILE: loader.dfy ===
/** The loader page's `sanitize` (script.js:15-17): whitespace normalisation
    of the text extracted from a PDF. The chapter heuristic is in module
    `Chapters`. */
module Loader {
  import opened Strings

  /** Every whitespace character of `s` is a plain space. */
  predicate OnlySpaces(s: string) {
    forall i :: 0 <= i < |s| && IsWs(s[i]) ==> s[i] == ' '
  }

  /** No two adjacent characters of `s` are both spaces. */
  predicate NoDoubleSpace(s: string) {
    forall i :: 0 <= i < |s| - 1 ==> !(s[i] == ' ' && s[i + 1] == ' ')
  }

  /** `s` neither starts nor ends with whitespace. */
  predicate NoEdgeWs(s: string) {
    |s| > 0 ==> !IsWs(s[0]) && !IsWs(s[|s| - 1])
  }

  /** Every whitespace run of `s` is a single space. */
  predicate Collapsed(s: string) {
    OnlySpaces(s) && NoDoubleSpace(s)
  }

  /** The normal form the loader stores: collapsed runs, no edge whitespace. */
  predicate Normal(s: string) {
    Collapsed(s) && NoEdgeWs(s)
  }

  /** `s.replace(/\s+/g, " ")`: every maximal whitespace run becomes one space. */
  function Collapse(s: string): (r: string)
    ensures Collapsed(r)
    ensures |r| > 0 <==> |s| > 0
    ensures |r| > 0 ==> (IsWs(r[0]) <==> IsWs(s[0]))
    ensures NonWs(r) == NonWs(s)
    decreases |s|
  {
    if |s| == 0 then ""
    else if IsWs(s[0]) then
      var rest := Collapse(TrimStart(s[1..]));
      assert (" " + rest)[1..] == rest;
      " " + rest
    else
      var rest := Collapse(s[1..]);
      assert ([s[0]] + rest)[1..] == rest;
      [s[0]] + rest
  }

  lemma CollapsedSlice(s: string, a: int, b: int)
    requires Collapsed(s) && 0 <= a <= b <= |s|
    ensures Collapsed(s[a..b])
  {
    var t := s[a..b];
    forall i | 0 <= i < |t| - 1
      ensures !(t[i] == ' ' && t[i + 1] == ' ')
    {
      assert t[i] == s[a + i] && t[i + 1] == s[a + i + 1];
    }
  }

  /** `sanitize` (script.js:15-17): the text with each whitespace run collapsed
      to one space and the ends trimmed. Nothing but whitespace is lost. */
  function Sanitize(text: string): (r: string)
    ensures NoEdgeWs(r)
    ensures OnlySpaces(r)
    ensures NoDoubleSpace(r)
    ensures NonWs(r) == NonWs(text)
  {
    var c := Collapse(text);
    TrimCollapsed(c);
    Trim(c)
  }

  /** Trimming keeps single-space runs single: it only cuts a slice. */
  lemma TrimCollapsed(c: string)
    requires Collapsed(c)
    ensures Collapsed(Trim(c))
  {
    var r := Trim(c);
    var a :| StripsTo(c, r, a);
    CollapsedPiece(c, r, a);
  }

  /** A contiguous piece of a collapsed text is collapsed. */
  lemma CollapsedPiece(s: string, r: string, a: nat)
    requires Collapsed(s) && a + |r| <= |s| && r == s[a..a + |r|]
    ensures Collapsed(r)
  {
    CollapsedSlice(s, a, a + |r|);
  }

  lemma {:induction false} CollapseFixesCollapsed(s: string)
    requires Collapsed(s)
    ensures Collapse(s) == s
    decreases |s|
  {
    if |s| > 0 {
      CollapsedSlice(s, 1, |s|);
      if IsWs(s[0]) {
        assert |s| > 1 ==> s[1] != ' ';
        assert TrimStart(s[1..]) == s[1..];
        CollapseFixesCollapsed(s[1..]);
        assert s == " " + s[1..];
      } else {
        CollapseFixesCollapsed(s[1..]);
        assert s == [s[0]] + s[1..];
      }
    }
  }

  /** `sanitize` leaves a normal string unchanged. */
  lemma SanitizeFixesNormal(s: string)
    requires Normal(s)
    ensures Sanitize(s) == s
  {
    CollapseFixesCollapsed(s);
    assert TrimStart(s) == s;
    assert TrimEnd(s) == s;
  }

  /** The strings `sanitize` leaves unchanged are exactly the normal ones. */
  lemma SanitizeFixedPoints(s: string)
    ensures Sanitize(s) == s <==> Normal(s)
  {
    if Normal(s) {
      SanitizeFixesNormal(s);
    }
  }

  /** `sanitize` is idempotent. */
  lemma SanitizeIdempotent(text: string)
    ensures Sanitize(Sanitize(text)) == Sanitize(text)
  {
    SanitizeFixedPoints(Sanitize(text));
  }

  /** A whitespace-free prefix passes through `Collapse` unchanged. */
  lemma {:induction false} CollapseWordPrefix(w: string, rest: string)
    requires WsFree(w)
    ensures Collapse(w + rest) == w + Collapse(rest)
    decreases |w|
  {
    if |w| > 0 {
      HeadAssoc(w, rest);
      assert !IsWs(w[0]);
      assert WsFree(w[1..]) by {
        forall i | 0 <= i < |w| - 1
          ensures !IsWs(w[1..][i])
        {
          assert w[1..][i] == w[i + 1];
        }
      }
      CollapseWordPrefix(w[1..], rest);
      HeadAssoc(w, Collapse(rest));
    } else {
      assert w + rest == rest;
    }
  }

  /** A leading whitespace run becomes one space. */
  lemma {:induction false} CollapseLeadingRun(s: string)
    requires |s| > 0 && IsWs(s[0])
    ensures Collapse(s) == " " + Collapse(TrimStart(s))
  {
  }

  /** From a word on, `Collapse` gives the words joined by single spaces,
      plus one space if the text ends in whitespace. */
  lemma {:induction false} CollapseFromWord(t: string)
    requires |t| == 0 || !IsWs(t[0])
    ensures Collapse(t) == Spaced(t) + EndSpace(t)
    decreases |t|
  {
    if |t| > 0 {
      var n := WordLen(t);
      var w, rest := t[..n], t[n..];
      FirstWord(t, n);
      CollapseWordPrefix(w, rest);
      if |rest| == 0 {
        FirstWordAlone(t, n);
        assert Collapse(t) == w + "";
      } else {
        var t' := TrimStart(rest);
        CollapseLeadingRun(rest);
        if |t'| == 0 {
          FirstWordThenSpace(t, n);
          assert Collapse(t) == w + " ";
        } else {
          FirstWordThenMore(t, n, t');
          CollapseFromWord(t');
          Assoc3(" ", Spaced(t'), EndSpace(t'));
          Assoc4(w, " ", Spaced(t'), EndSpace(t'));
        }
      }
    }
  }

  /** `Collapse` of a text that starts with whitespace: one space, then the
      words joined by single spaces and one more space if the text ends in
      whitespace after a word. */
  lemma {:induction false} CollapseFromSpace(s: string)
    requires |s| > 0 && IsWs(s[0])
    ensures |Spaced(s)| == 0 ==> Collapse(s) == " "
    ensures |Spaced(s)| > 0 ==> Collapse(s) == " " + Spaced(s) + EndSpace(s)
  {
    var t := TrimStart(s);
    CollapseLeadingRun(s);
    LeadingWs(s);
    CollapseFromWord(t);
    if |t| > 0 {
      Assoc3(" ", Spaced(s), EndSpace(s));
    } else {
      assert Collapse(t) == "" + "";
    }
  }

  /** `Collapse` in terms of the words of the text: the words joined by single
      spaces, with one space in front if the text starts with whitespace and
      one behind if it ends with whitespace after a word. An all-whitespace
      text becomes a single space. */
  lemma {:induction false} CollapseWords(s: string)
    ensures Collapse(s) == (if |s| > 0 && IsWs(s[0]) then " " else "")
                           + Spaced(s)
                           + (if |Spaced(s)| > 0 then EndSpace(s) else "")
  {
    if |s| > 0 {
      if IsWs(s[0]) {
        CollapseFromSpace(s);
        if |Spaced(s)| == 0 {
          assert " " == " " + Spaced(s) + "";
        }
      } else {
        CollapseFromWord(s);
        SpacedFromWord(s, s);
        assert Collapse(s) == "" + Spaced(s) + EndSpace(s);
      }
    }
  }

  /** A whitespace run between two non-whitespace characters becomes one
      space where it stands, whatever surrounds it. */
  lemma {:induction false} CollapseSplice(a: string, w: string, b: string)
    requires |w| > 0 && AllWs(w)
    requires |a| == 0 || !IsWs(a[|a| - 1])
    requires |b| == 0 || !IsWs(b[0])
    ensures Collapse(a + w + b) == Collapse(a) + " " + Collapse(b)
    decreases |a|
  {
    if |a| == 0 {
      assert a + w + b == w + b;
      CollapseRun(w, b);
    } else if IsWs(a[0]) {
      var t' := TrimStart(a[1..]);
      assert |t'| > 0 && !IsWs(t'[|t'| - 1]) by {
        var t := a[1..];
        assert |t| > 0 && t[|t| - 1] == a[|a| - 1];
        if |t'| < |t| {
          assert t == t[..|t| - |t'|] + t';
        }
      }
      CollapseSplice(t', w, b);
      SpliceAfterRun(a, w, b);
    } else {
      assert |a[1..]| == 0 || a[1..][|a[1..]| - 1] == a[|a| - 1];
      CollapseSplice(a[1..], w, b);
      SpliceAfterChar(a, w, b);
    }
  }

  /** The inductive step of `CollapseSplice` when `a` opens with whitespace:
      that run collapses to the same space on both sides. */
  lemma SpliceAfterRun(a: string, w: string, b: string)
    requires |a| > 0 && IsWs(a[0]) && |TrimStart(a[1..])| > 0
    requires var t' := TrimStart(a[1..]);
             Collapse(t' + w + b) == Collapse(t') + " " + Collapse(b)
    ensures Collapse(a + w + b) == Collapse(a) + " " + Collapse(b)
  {
    var t, t' := a[1..], TrimStart(a[1..]);
    assert a + w + b == [a[0]] + (t + (w + b)) && a == [a[0]] + t by {
      Assoc3(a, w, b);
      HeadAssoc(a, w + b);
    }
    CollapseCons(a[0], t + (w + b));
    CollapseCons(a[0], t);
    TrimStartKeep(t, w + b);
    Assoc3(t', w, b);
    Assoc4(" ", Collapse(t'), " ", Collapse(b));
  }

  /** The inductive step of `CollapseSplice` when `a` opens with a
      non-whitespace character: that character is kept on both sides. */
  lemma SpliceAfterChar(a: string, w: string, b: string)
    requires |a| > 0 && !IsWs(a[0])
    requires Collapse(a[1..] + w + b) == Collapse(a[1..]) + " " + Collapse(b)
    ensures Collapse(a + w + b) == Collapse(a) + " " + Collapse(b)
  {
    var t := a[1..];
    assert a + w + b == [a[0]] + (t + (w + b)) && a == [a[0]] + t by {
      Assoc3(a, w, b);
      HeadAssoc(a, w + b);
    }
    CollapseCons(a[0], t + (w + b));
    CollapseCons(a[0], t);
    Assoc3(t, w, b);
    Assoc4([a[0]], Collapse(t), " ", Collapse(b));
  }

  /** One step of `Collapse` on a text given as its first character and the
      rest. */
  lemma CollapseCons(c: char, x: string)
    ensures Collapse([c] + x) == if IsWs(c) then " " + Collapse(TrimStart(x))
                                 else [c] + Collapse(x)
  {
    ConsParts(c, x);
  }

  /** A whitespace run followed by a word becomes one space. */
  lemma CollapseRun(w: string, b: string)
    requires |w| > 0 && AllWs(w)
    requires |b| == 0 || !IsWs(b[0])
    ensures Collapse(w + b) == " " + Collapse(b)
  {
    HeadAssoc(w, b);
    assert AllWs(w[1..]) by {
      forall i | 0 <= i < |w| - 1
        ensures IsWs(w[1..][i])
      {
        assert w[1..][i] == w[i + 1];
      }
    }
    TrimStartSkip(w[1..], b);
  }

  /** A tab-and-newline run between two words becomes one space. */
  lemma CollapseExample()
    ensures Collapse("a \t\n b") == "a b"
  {
  }

  /** `sanitize` of the same text: the run collapses to one space, and `trim`
      then finds no whitespace at either end to remove. */
  lemma SanitizeExample()
    ensures Sanitize("a \t\n b") == "a b"
  {
    assert Trim("a b") == "a b" by {
      assert "a b" == "" + "a b" + "";
      TrimFramed("", "a b", "");
    }
    CollapseExample();
  }

  /** `sanitize` is the text's words, in order, each separated from the next
      by exactly one space: every whitespace run between two words becomes one
      space where it stands, and the runs at the ends disappear. */
  lemma {:induction false} SanitizeJoinsWords(text: string)
    ensures Sanitize(text) == JoinWith(WsWords(text), ' ')
  {
    TrimCollapseJoinsWords(text);
  }

  lemma {:induction false} TrimCollapseJoinsWords(text: string)
    ensures Trim(Collapse(text)) == JoinWith(WsWords(text), ' ')
  {
    CollapseWords(text);
    SpacedJoinsWords(text);
    var p := if |text| > 0 && IsWs(text[0]) then " " else "";
    var q := if |Spaced(text)| > 0 then EndSpace(text) else "";
    TrimSpacedWords(p, JoinWith(WsWords(text), ' '), q, text);
  }

  /** The words joined by single spaces, framed by at most one space on
      either side, trim back to the joined words. */
  lemma {:induction false} TrimSpacedWords(p: string, j: string, q: string, text: string)
    requires p == " " || p == ""
    requires q == " " || q == ""
    requires j == JoinWith(WsWords(text), ' ')
    ensures Trim(p + j + q) == j
  {
    assert |j| > 0 ==> !IsWs(j[0]) && !IsWs(j[|j| - 1]) by {
      WsWordsPlain(text);
      JoinPlainWords(WsWords(text));
    }
    assert AllWs(p) && AllWs(q) by {
      assert AllWs(" ") && AllWs("");
    }
    TrimFramed(p, j, q);
  }
}

=== FILE: pacing.dfy ===
/** The reader page's playback engine (script.js:78-161): the word stream, the
    position, the pause flag, the single outstanding timer, and the progress
    written on every shown word. The DOM, `localStorage` and the browser's
    timer queue are replaced by fields of an immutable state. */
module Pacing {
  import opened Wrappers
  import Strings
  import Render
  import Tokens

  /** A words-per-minute setting, as read from the speed input on every tick. */
  type Wpm = n: int | 0 < n witness 1

  /** `isSentenceEnd` (script.js:117-119): `/[.!?]$/.test(word)`. The
      pattern matches exactly when the last character is a full stop, an
      exclamation mark or a question mark. */
  function IsSentenceEnd(word: string): (b: bool)
    ensures b <==> |word| > 0 && word[|word| - 1] in ".!?"
  {
    SearchEndMark(word, 0)
  }

  /** The regular-expression search of `/[.!?]$/` from position `i` on: some
      start `j` where one of the three marks is followed by the end of input
      (`$` without the `m` flag). */
  function SearchEndMark(word: string, i: nat): (b: bool)
    ensures b <==> exists j :: i <= j < |word| && word[j] in ".!?" && j + 1 == |word|
    decreases |word| - i
  {
    if i >= |word| then false
    else (word[i] in ".!?" && i + 1 == |word|) || SearchEndMark(word, i + 1)
  }

  /** The delay, in milliseconds, before the word after `word` is shown
      (script.js:144-146): one minute divided by the speed, stretched by a
      factor of 2.2 after a sentence end. */
  function Delay(word: string, wpm: Wpm): (d: real)
    ensures d > 0.0
    ensures d * wpm as real == if IsSentenceEnd(word) then 132000.0 else 60000.0
  {
    var d := 60000.0 / wpm as real;
    if IsSentenceEnd(word) then d * (22.0 / 10.0) else d
  }

  /** A faster setting never lengthens the delay after any word. */
  lemma DelayShrinksWithSpeed(word: string, slow: Wpm, fast: Wpm)
    requires slow <= fast
    ensures Delay(word, fast) <= Delay(word, slow)
  {
    var k := if IsSentenceEnd(word) then 132000.0 else 60000.0;
    DelayIsQuotient(word, slow);
    DelayIsQuotient(word, fast);
    DivAntitone(k, slow as real, fast as real);
  }

  /** The delay is the word's pause budget divided by the speed. */
  lemma DelayIsQuotient(word: string, wpm: Wpm)
    ensures Delay(word, wpm) == (if IsSentenceEnd(word) then 132000.0 else 60000.0) / wpm as real
  {
  }

  /** Dividing a positive amount by a larger positive number gives less. */
  lemma DivAntitone(k: real, x: real, y: real)
    requires 0.0 < k && 0.0 < x <= y
    ensures k / y <= k / x
  {
  }

  /** The progress-bar width in percent for a word at `index` of `total`
      (script.js:122): the fraction already reached, times 100. */
  function Percent(index: nat, total: nat): (pct: real)
    requires 0 < total
    ensures pct * total as real == 100.0 * index as real
    ensures index < total ==> 0.0 <= pct < 100.0
  {
    (index as real / total as real) * 100.0
  }

  /** The reader's state. `pending` is the delay of the one scheduled call of
      `next`, if any; `persisted` is the index last written to storage in this
      session; `bar` is the progress-bar width last set in this session. */
  datatype State = State(
    words: seq<string>,
    index: nat,
    paused: bool,
    pending: Option<real>,
    persisted: Option<nat>,
    bar: Option<real>)

  /** A word put on screen, with the display chosen for the current mode. */
  datatype Frame = Frame(word: string, view: Render.View)

  /** The state after an event, and the word it showed, if any. */
  datatype Step = Step(state: State, shown: Option<Frame>)

  /** The reader page's initial state (script.js:78-83): the stored text's
      words, the stored position exactly as read (no clamping), running, no
      timer, nothing written yet. */
  function Open(text: string, start: nat): (s: State)
    ensures s.words == Tokens.Tokenize(text)
    ensures Tokens.Words(s.words)
    ensures Strings.Concat(s.words) == Strings.Without(text, ' ')
    ensures s.index == start && !s.paused
    ensures s.pending.None? && s.persisted.None? && s.bar.None?
  {
    Tokens.TokensKeepText(text);
    State(Tokens.Tokenize(text), start, false, None, None, None)
  }

  /** `next` (script.js:127-149). While paused nothing happens. Past the last
      word the reader pauses and nothing else changes: no render, no progress,
      no new timer. Otherwise the current word is shown, its index and
      percentage are written, the position advances by one, and the one
      pending timer is replaced by one for this word's delay. */
  function Next(s: State, wpm: Wpm, mode: string): (r: Step)
    ensures r.state.words == s.words
    ensures r.shown.Some? <==> !s.paused && s.index < |s.words|
    ensures r.state.paused <==> s.paused || s.index >= |s.words|
    ensures r.shown.None? ==> r.state == s.(paused := r.state.paused)
    ensures r.shown.Some? ==>
              var word := s.words[s.index];
              && r.shown.value == Frame(word, Render.RenderWord(word, mode))
              && r.state.index == s.index + 1
              && r.state.persisted == Some(s.index)
              && r.state.bar == Some(Percent(s.index, |s.words|))
              && r.state.bar.value < 100.0
              && r.state.pending == Some(Delay(word, wpm))
  {
    if s.paused then Step(s, None)
    else if s.index >= |s.words| then Step(s.(paused := true), None)
    else
      var word := s.words[s.index];
      var view := Render.RenderWord(word, mode);
      var s' := s.(persisted := Some(s.index),
                   bar := Some(Percent(s.index, |s.words|)),
                   index := s.index + 1,
                   pending := Some(Delay(word, wpm)));
      Step(s', Some(Frame(word, view)))
  }

  /** The pending timer elapses: it is no longer outstanding and calls
      `next`. With no timer outstanding nothing happens. A timer left over
      from before a pause fires into a paused reader and only disappears. */
  function Fire(s: State, wpm: Wpm, mode: string): (r: Step)
    ensures s.pending.None? ==> r == Step(s, None)
    ensures s.pending.Some? && s.paused ==> r == Step(s.(pending := None), None)
    ensures s.pending.Some? && !s.paused ==> r == Next(s.(pending := None), wpm, mode)
  {
    if s.pending.None? then Step(s, None)
    else Next(s.(pending := None), wpm, mode)
  }

  /** The pause button (script.js:151-161): it flips the flag. Pausing only
      sets the flag: the outstanding timer is not cancelled. Resuming calls
      `next` at once, so the word at the current position shows with no wait,
      or, past the last word, the reader pauses again straight away. */
  function Toggle(s: State, wpm: Wpm, mode: string): (r: Step)
    ensures !s.paused ==> r == Step(s.(paused := true), None)
    ensures s.paused && s.index >= |s.words| ==> r == Step(s, None)
    ensures s.paused && s.index < |s.words| ==>
              && !r.state.paused
              && r.shown.Some? && r.shown.value.word == s.words[s.index]
              && r.state.index == s.index + 1
              && r.state.pending == Some(Delay(s.words[s.index], wpm))
              && r.state.words == s.words
              && r.state.persisted == Some(s.index)
              && r.state.bar == Some(Percent(s.index, |s.words|))
              && r.shown.value.view == Render.RenderWord(s.words[s.index], mode)
  {
    if !s.paused then Step(s.(paused := true), None)
    else Next(s.(paused := false), wpm, mode)
  }

  /** Opening the reader page: the initial state, then the first call of
      `next` (script.js:167). */
  function Start(text: string, start: nat, wpm: Wpm, mode: string): (r: Step)
    ensures var words := Tokens.Tokenize(text);
            && r.state.words == words
            && (start < |words| ==>
                  && r.shown == Some(Frame(words[start], Render.RenderWord(words[start], mode)))
                  && !r.state.paused
                  && r.state.index == start + 1
                  && r.state.persisted == Some(start)
                  && r.state.pending == Some(Delay(words[start], wpm)))
            && (start >= |words| ==>
                  && r.shown.None? && r.state.paused && r.state.index == start
                  && r.state.pending.None? && r.state.persisted.None?)
  {
    Next(Open(text, start), wpm, mode)
  }
}

=== FILE: render.dfy ===
/** How one word is shown (script.js:85-115): the fixation offset used by the
    pivot mode, and the display produced for each mode, as data instead of
    markup. */
module Render {
  import opened Wrappers

  /** `pivotIndex` (script.js:85-91): the fixation offset for a word, from
      length thresholds 1, 5, 9 and 13. */
  function PivotIndex(word: string): (p: nat)
    ensures p <= 4
    ensures |word| > 0 ==> p < |word|
    ensures p == 0 <==> |word| <= 1
  {
    if |word| <= 1 then 0
    else if |word| <= 5 then 1
    else if |word| <= 9 then 2
    else if |word| <= 13 then 3
    else 4
  }

  /** The thresholds 1, 5, 9 and 13 step every four characters: the offset
      is a quarter of the length plus two, capped at 4. */
  lemma PivotClosedForm(word: string)
    ensures PivotIndex(word) == if (|word| + 2) / 4 < 4 then (|word| + 2) / 4 else 4
  {
  }

  /** A longer word never gets an earlier fixation point. */
  lemma PivotMonotone(a: string, b: string)
    requires |a| <= |b|
    ensures PivotIndex(a) <= PivotIndex(b)
  {
  }

  /** JavaScript `s.slice(0, n)` for `n >= 0`: clamps at the end of `s`. */
  function SliceTo(s: string, n: nat): (r: string)
    ensures |r| == if n <= |s| then n else |s|
    ensures r == s[..|r|]
  {
    if n <= |s| then s[..n] else s
  }

  /** JavaScript `s.slice(n)` for `n >= 0`: empty once `n` passes the end. */
  function SliceFrom(s: string, n: nat): (r: string)
    ensures |r| == if n <= |s| then |s| - n else 0
    ensures r == s[|s| - |r|..]
  {
    if n <= |s| then s[n..] else ""
  }

  /** JavaScript `s[i]`: `undefined` (here `None`) outside the string. */
  function CharAt(s: string, i: nat): (c: Option<char>)
    ensures c.Some? <==> i < |s|
    ensures c.Some? ==> c.value == s[i]
  {
    if i < |s| then Some(s[i]) else None
  }

  /** What a render leaves on the word box: the whole word in one of the two
      styles, the three pivot fragments, or the box untouched. */
  datatype View =
    | Highlight(text: string)
    | Underline(text: string)
    | Pivot(before: string, pivot: Option<char>, after: string)
    | NoChange

  /** `renderWord` (script.js:93-115) for the mode selector's current value.
      Any mode other than "highlight", "underline" and "pivot" leaves the
      box as it was. */
  function RenderWord(word: string, mode: string): (v: View)
    ensures mode == "highlight" ==> v == Highlight(word)
    ensures mode == "underline" ==> v == Underline(word)
    ensures mode != "highlight" && mode != "underline" && mode != "pivot" ==> v == NoChange
    ensures mode == "pivot" ==> v.Pivot? && |v.before| == PivotIndex(word) <= 4
    ensures mode == "pivot" && |word| > 0 ==>
              v.pivot == Some(word[PivotIndex(word)]) && v.before + [v.pivot.value] + v.after == word
    ensures mode == "pivot" && |word| == 0 ==> v == Pivot("", None, "")
  {
    if mode != "pivot" then
      if mode == "highlight" then Highlight(word)
      else if mode == "underline" then Underline(word)
      else NoChange
    else
      var p := PivotIndex(word);
      var v := Pivot(SliceTo(word, p), CharAt(word, p), SliceFrom(word, p + 1));
      assert |word| > 0 ==> word == word[..p] + [word[p]] + word[p + 1..];
      v
  }

  /** The word's characters as they appear on screen, left to right (`None`
      when the box is left untouched). */
  function Displayed(v: View): Option<string> {
    match v
    case Highlight(t) => Some(t)
    case Underline(t) => Some(t)
    case Pivot(b, c, a) => Some(b + (if c.Some? then [c.value] else "undefined") + a)
    case NoChange => None
  }

  /** In each of the three modes a non-empty word is displayed whole and
      unaltered, whatever the split. */
  lemma RenderShowsWholeWord(word: string, mode: string)
    requires |word| > 0
    requires mode == "highlight" || mode == "underline" || mode == "pivot"
    ensures Displayed(RenderWord(word, mode)) == Some(word)
  {
  }

  /** The pivot split of "reading" (seven letters, offset 2). */
  lemma PivotOfReading()
    ensures RenderWord("reading", "pivot") == Pivot("re", Some('a'), "ding")
  {
    assert PivotIndex("reading") == 2;
    assert "reading"[..2] == "re";
    assert "reading"[3..] == "ding";
  }
}

=== FILE: strings.dfy ===
/** Models of the JavaScript string built-ins the script relies on: the `\s`
    character class, `trim`, `split` on one character, `join`, and the
    substring test behind a regular expression made of literal alternatives. */
module Strings {

  /** ECMAScript's `\s` class, which is also the set `String.prototype.trim`
      strips: the WhiteSpace and LineTerminator code points (the Zs category
      of Unicode 15 plus tab, vertical tab, form feed, BOM, LF, CR, LS, PS). */
  predicate IsWs(c: char) {
    || c == '\t' || c == '\n' || c == '\U{000B}' || c == '\U{000C}' || c == '\r'
    || c == ' ' || c == '\U{00A0}' || c == '\U{1680}'
    || ('\U{2000}' <= c <= '\U{200A}')
    || c == '\U{2028}' || c == '\U{2029}' || c == '\U{202F}' || c == '\U{205F}'
    || c == '\U{3000}' || c == '\U{FEFF}'
  }

  /** The characters of `s` that are not whitespace, in their original order. */
  function NonWs(s: string): string {
    if |s| == 0 then "" else (if IsWs(s[0]) then "" else [s[0]]) + NonWs(s[1..])
  }

  lemma {:induction false} NonWsAppend(a: string, b: string)
    ensures NonWs(a + b) == NonWs(a) + NonWs(b)
  {
    if |a| > 0 {
      assert (a + b)[1..] == a[1..] + b;
      NonWsAppend(a[1..], b);
    } else {
      assert a + b == b;
    }
  }

  /** `s` with its leading whitespace run removed (the left half of `trim`). */
  function TrimStart(s: string): (r: string)
    ensures |r| <= |s| && (|r| == |s| ==> r == s) && (|r| < |s| ==> s == s[..|s| - |r|] + r)
    ensures forall i :: 0 <= i < |s| - |r| ==> IsWs(s[i])
    ensures |r| > 0 ==> !IsWs(r[0])
    ensures NonWs(r) == NonWs(s)
  {
    if |s| > 0 && IsWs(s[0]) then
      var r := TrimStart(s[1..]);
      TrimStartStepSplit(s, r);
      TrimStartStepWs(s, r);
      assert NonWs(s) == "" + NonWs(s[1..]);
      r
    else s
  }

  /** Dropping one more leading whitespace character keeps `r` a suffix of
      the text. */
  lemma TrimStartStepSplit(s: string, r: string)
    requires |s| > 0 && |r| <= |s| - 1
    requires |r| == |s| - 1 ==> r == s[1..]
    requires |r| < |s| - 1 ==> s[1..] == s[1..][..|s| - 1 - |r|] + r
    ensures s == s[..|s| - |r|] + r
  {
    var k, u := |s| - |r|, s[1..];
    assert s == [s[0]] + u;
    assert u == u[..k - 1] + r by {
      if k == 1 {
        assert u[..0] == [];
      }
    }
    assert s[..k] == [s[0]] + u[..k - 1] by {
      forall i | 0 <= i < k
        ensures s[..k][i] == ([s[0]] + u[..k - 1])[i]
      {
        if i > 0 {
          assert s[i] == u[i - 1];
        }
      }
    }
  }

  /** Dropping one more leading whitespace character keeps everything cut
      off whitespace. */
  lemma TrimStartStepWs(s: string, r: string)
    requires |s| > 0 && IsWs(s[0]) && |r| <= |s| - 1
    requires forall i :: 0 <= i < |s| - 1 - |r| ==> IsWs(s[1..][i])
    ensures forall i :: 0 <= i < |s| - |r| ==> IsWs(s[i])
  {
    forall i | 0 < i < |s| - |r|
      ensures IsWs(s[i])
    {
      assert s[i] == s[1..][i - 1];
    }
  }

  /** `s` with its trailing whitespace run removed (the right half of `trim`). */
  function TrimEnd(s: string): (r: string)
    ensures |r| <= |s| && (|r| == |s| ==> r == s) && (|r| < |s| ==> r == s[..|r|])
    ensures forall i :: |r| <= i < |s| ==> IsWs(s[i])
    ensures |r| > 0 ==> !IsWs(r[|r| - 1])
    ensures NonWs(r) == NonWs(s)
  {
    if |s| > 0 && IsWs(s[|s| - 1]) then
      assert s == s[..|s| - 1] + [s[|s| - 1]];
      NonWsAppend(s[..|s| - 1], [s[|s| - 1]]);
      TrimEnd(s[..|s| - 1])
    else s
  }

  /** `r` is the piece of `s` starting at `a`, and everything of `s` outside
      that piece is whitespace. */
  predicate StripsTo(s: string, r: string, a: int) {
    && 0 <= a <= |s| - |r| && r == s[a..a + |r|]
    && (forall i :: 0 <= i < a ==> IsWs(s[i]))
    && (forall i :: a + |r| <= i < |s| ==> IsWs(s[i]))
  }

  /** `String.prototype.trim`: a contiguous piece of `s` that neither starts
      nor ends with whitespace, obtained by dropping only whitespace. */
  function Trim(s: string): (r: string)
    ensures |r| > 0 ==> !IsWs(r[0]) && !IsWs(r[|r| - 1])
    ensures NonWs(r) == NonWs(s)
    ensures exists a :: StripsTo(s, r, a)
  {
    TrimEdges(s);
    TrimStrips(s);
    TrimEnd(TrimStart(s))
  }

  /** The two half-trims leave no whitespace at either edge. */
  lemma TrimEdges(s: string)
    ensures var r := TrimEnd(TrimStart(s));
            |r| > 0 ==> !IsWs(r[0]) && !IsWs(r[|r| - 1])
  {
    var t := TrimStart(s);
    var r := TrimEnd(t);
    if |r| > 0 {
      assert r[0] == t[0] by {
        if |r| < |t| {
          assert r == t[..|r|];
        }
      }
      assert !IsWs(t[0]);
    }
  }

  /** The two half-trims cut a contiguous piece out of `s`. */
  lemma TrimStrips(s: string)
    ensures StripsTo(s, TrimEnd(TrimStart(s)), |s| - |TrimStart(s)|)
  {
    var t := TrimStart(s);
    var a := |s| - |t|;
    assert s == s[..a] + t by {
      if |t| == |s| {
        assert s[..0] == [];
      }
    }
    StripsInside(s, a, t, TrimEnd(t));
  }

  /** Whitespace dropped before position `a`, then after a prefix `r` of
      the rest, leaves `r` as a contiguous piece of `s`. */
  lemma StripsInside(s: string, a: nat, t: string, r: string)
    requires a <= |s| && s == s[..a] + t
    requires forall i :: 0 <= i < a ==> IsWs(s[i])
    requires |r| <= |t| && r == t[..|r|]
    requires forall i :: |r| <= i < |t| ==> IsWs(t[i])
    ensures StripsTo(s, r, a)
  {
    forall i | a + |r| <= i < |s|
      ensures IsWs(s[i])
    {
      assert s[i] == t[i - a];
    }
    assert r == s[a..a + |r|] by {
      forall i | 0 <= i < |r|
        ensures r[i] == s[a + i]
      {
        assert r[i] == t[i];
      }
    }
  }

  /** Position of the first occurrence of `c` in `s`. */
  function IndexOf(s: string, c: char): (i: nat)
    requires c in s
    ensures i < |s| && s[i] == c && c !in s[..i]
  {
    if s[0] == c then 0 else 1 + IndexOf(s[1..], c)
  }

  /** `s` without its leading run of `c`. */
  function DropLeading(s: string, c: char): (r: string)
    ensures |r| <= |s| && (|r| == |s| ==> r == s) && (|r| < |s| ==> s == s[..|s| - |r|] + r)
    ensures forall i :: 0 <= i < |s| - |r| ==> s[i] == c
    ensures |r| > 0 ==> r[0] != c
  {
    if |s| > 0 && s[0] == c then DropLeading(s[1..], c) else s
  }

  /** `Array.prototype.join(sep)` for a one-character separator. */
  function JoinWith(parts: seq<string>, sep: char): string {
    if |parts| == 0 then ""
    else if |parts| == 1 then parts[0]
    else parts[0] + [sep] + JoinWith(parts[1..], sep)
  }

  /** `String.prototype.split(sep)` for a one-character string separator:
      the pieces between consecutive occurrences, empty pieces included. */
  function Split(s: string, sep: char): (parts: seq<string>)
    ensures |parts| >= 1
    ensures forall k :: 0 <= k < |parts| ==> sep !in parts[k]
    ensures JoinWith(parts, sep) == s
    decreases |s|
  {
    if sep !in s then [s]
    else
      var i := IndexOf(s, sep);
      var rest := Split(s[i + 1..], sep);
      assert ([s[..i]] + rest)[1..] == rest;
      assert s == s[..i] + [sep] + s[i + 1..];
      [s[..i]] + rest
  }

  /** All pieces concatenated, with nothing in between. */
  function Concat(parts: seq<string>): string {
    if |parts| == 0 then "" else parts[0] + Concat(parts[1..])
  }

  /** `s` with every occurrence of `c` removed. */
  function Without(s: string, c: char): string {
    if |s| == 0 then "" else (if s[0] == c then "" else [s[0]]) + Without(s[1..], c)
  }

  lemma {:induction false} WithoutAppend(a: string, b: string, c: char)
    ensures Without(a + b, c) == Without(a, c) + Without(b, c)
  {
    if |a| > 0 {
      assert (a + b)[1..] == a[1..] + b;
      WithoutAppend(a[1..], b, c);
    } else {
      assert a + b == b;
    }
  }

  lemma {:induction false} WithoutAbsent(s: string, c: char)
    requires c !in s
    ensures Without(s, c) == s
  {
    if |s| > 0 {
      WithoutAbsent(s[1..], c);
    }
  }

  /** A string is the part before position `i`, the character at `i`, and the
      part after it. */
  lemma SplitAround(s: string, i: nat)
    requires i < |s|
    ensures s == s[..i] + [s[i]] + s[i + 1..]
  {
  }

  /** Joining a non-empty list after a first piece puts one separator
      between them. */
  lemma JoinCons(w: string, ws: seq<string>, sep: char)
    requires |ws| > 0
    ensures JoinWith([w] + ws, sep) == w + [sep] + JoinWith(ws, sep)
  {
    assert ([w] + ws)[1..] == ws;
  }

  /** Splitting loses exactly the separators: the pieces, concatenated, are
      the input with every separator removed, in the original order. */
  lemma {:induction false} ConcatSplit(s: string, sep: char)
    ensures Concat(Split(s, sep)) == Without(s, sep)
    decreases |s|
  {
    if sep !in s {
      WithoutAbsent(s, sep);
    } else {
      var i := IndexOf(s, sep);
      var head, tail := s[..i], s[i + 1..];
      assert Split(s, sep) == [head] + Split(tail, sep);
      ConcatSplit(tail, sep);
      assert Concat([head] + Split(tail, sep)) == head + Concat(Split(tail, sep));
      WithoutSeparator(head, tail, sep);
      assert s == head + [sep] + tail;
    }
  }

  lemma WithoutSeparator(head: string, tail: string, sep: char)
    requires sep !in head
    ensures Without(head + [sep] + tail, sep) == head + Without(tail, sep)
  {
    var hs := head + [sep];
    WithoutAppend(hs, tail, sep);
    WithoutAppend(head, [sep], sep);
    WithoutAbsent(head, sep);
    assert Without([sep], sep) == "" by {
      assert [sep][1..] == "";
    }
    assert Without(hs, sep) == head;
  }

  lemma {:induction false} WithoutRun(s: string, c: char)
    requires forall i :: 0 <= i < |s| ==> s[i] == c
    ensures Without(s, c) == ""
  {
    if |s| > 0 {
      WithoutRun(s[1..], c);
    }
  }

  lemma ConcatCons(head: string, rest: seq<string>)
    ensures Concat([head] + rest) == head + Concat(rest)
  {
    assert ([head] + rest)[1..] == rest;
  }

  /** Removing a leading run of `c` removes only occurrences of `c`. */
  lemma WithoutDropLeading(tail: string, c: char)
    ensures Without(tail, c) == Without(DropLeading(tail, c), c)
  {
    var d := DropLeading(tail, c);
    var n := |tail| - |d|;
    var run := tail[..n];
    assert tail == run + d;
    forall i | 0 <= i < n
      ensures run[i] == c
    {
      assert run[i] == tail[i];
    }
    WithoutRun(run, c);
    WithoutAppend(run, d, c);
  }

  /** `pat` occurs in `s` at position `i`. */
  predicate OccursAt(s: string, pat: string, i: int) {
    0 <= i <= |s| - |pat| && s[i..i + |pat|] == pat
  }

  /** Whether `pat` occurs in `s` as a contiguous piece. */
  function Contains(s: string, pat: string): (b: bool)
    ensures b <==> exists i :: OccursAt(s, pat, i)
    decreases |s|
  {
    if |s| < |pat| then false
    else if s[..|pat|] == pat then
      assert OccursAt(s, pat, 0);
      true
    else
      var b := Contains(s[1..], pat);
      assert b ==> exists i :: OccursAt(s, pat, i) by {
        if b {
          var j :| OccursAt(s[1..], pat, j);
          assert s[1..][j..j + |pat|] == s[j + 1..j + 1 + |pat|];
          assert OccursAt(s, pat, j + 1);
        }
      }
      assert (exists i :: OccursAt(s, pat, i)) ==> b by {
        if exists i :: OccursAt(s, pat, i) {
          var i :| OccursAt(s, pat, i);
          assert i != 0;
          assert s[1..][i - 1..i - 1 + |pat|] == s[i..i + |pat|];
          assert OccursAt(s[1..], pat, i - 1);
        }
      }
      b
  }

  /** A pattern as long as the text occurs in it only as the whole text. */
  lemma SameLengthContains(s: string, pat: string)
    requires |s| == |pat|
    ensures Contains(s, pat) <==> s == pat
  {
    if Contains(s, pat) {
      var i :| OccursAt(s, pat, i);
      assert s[0..|s|] == s;
    } else {
      assert !OccursAt(s, pat, 0);
      assert s[0..|s|] == s;
    }
  }

  lemma HeadAssoc(w: string, c: string)
    requires |w| > 0
    ensures [w[0]] + (w[1..] + c) == w + c
    ensures (w + c)[0] == w[0] && (w + c)[1..] == w[1..] + c
  {
  }

  lemma ConsParts(c: char, tail: string)
    ensures ([c] + tail)[0] == c && ([c] + tail)[1..] == tail
  {
  }

  lemma Assoc3(a: string, b: string, c: string)
    ensures a + b + c == a + (b + c)
  {
  }

  lemma Assoc4(a: string, b: string, c: string, d: string)
    ensures a + (b + c + d) == a + b + c + d
  {
  }

  /** Every character of `s` is whitespace. */
  predicate AllWs(s: string) {
    forall i :: 0 <= i < |s| ==> IsWs(s[i])
  }

  /** No character of `w` is whitespace. */
  predicate WsFree(w: string) {
    forall i :: 0 <= i < |w| ==> !IsWs(w[i])
  }

  /** Every piece of `words` is non-empty and free of whitespace. */
  predicate PlainWords(words: seq<string>) {
    forall k :: 0 <= k < |words| ==> |words[k]| > 0 && WsFree(words[k])
  }

  /** Length of the maximal whitespace-free run at the start of `s`. */
  function WordLen(s: string): (n: nat)
    ensures n <= |s| && forall i :: 0 <= i < n ==> !IsWs(s[i])
    ensures n < |s| ==> IsWs(s[n])
    decreases |s|
  {
    if |s| > 0 && !IsWs(s[0]) then 1 + WordLen(s[1..]) else 0
  }

  /** The words of `s` in the sense of `\s`: its maximal whitespace-free runs,
      in order, that is the pieces between whitespace characters with the
      empty pieces dropped. */
  function WsWords(s: string): seq<string>
    decreases |s|
  {
    var t := TrimStart(s);
    if |t| == 0 then []
    else
      var n := WordLen(t);
      [t[..n]] + WsWords(t[n..])
  }

  lemma {:induction false} PlainWordsCons(w: string, ws: seq<string>)
    requires |w| > 0 && WsFree(w) && PlainWords(ws)
    ensures PlainWords([w] + ws)
  {
    var v := [w] + ws;
    forall k | 0 < k < |v|
      ensures v[k] == ws[k - 1]
    {
    }
  }

  /** Every word is non-empty and free of whitespace. */
  lemma {:induction false} WsWordsPlain(s: string)
    ensures PlainWords(WsWords(s))
    decreases |s|
  {
    var t := TrimStart(s);
    if |t| > 0 {
      var n := WordLen(t);
      WsWordsPlain(t[n..]);
      PlainWordsCons(t[..n], WsWords(t[n..]));
    }
  }

  /** The words of `s`, in order, with one space between neighbours. */
  function Spaced(s: string): string
    decreases |s|
  {
    var t := TrimStart(s);
    if |t| == 0 then ""
    else
      var n := WordLen(t);
      var more := Spaced(t[n..]);
      if |more| == 0 then t[..n] else t[..n] + " " + more
  }

  /** One space if `t` ends in whitespace, nothing otherwise. */
  function EndSpace(t: string): string {
    if |t| > 0 && IsWs(t[|t| - 1]) then " " else ""
  }

  /** A text that starts with a word is that word followed by either nothing
      or a whitespace run. */
  lemma {:induction false} FirstWord(t: string, n: nat)
    requires |t| > 0 && !IsWs(t[0]) && n == WordLen(t)
    ensures 0 < n <= |t| && t == t[..n] + t[n..] && WsFree(t[..n])
    ensures n < |t| ==> IsWs(t[n..][0])
  {
    forall i | 0 <= i < n
      ensures !IsWs(t[..n][i])
    {
    }
  }

  /** A text that is a single word. */
  lemma {:induction false} FirstWordAlone(t: string, n: nat)
    requires |t| > 0 && !IsWs(t[0]) && n == WordLen(t) && n == |t|
    ensures Spaced(t) == t[..n] && EndSpace(t) == ""
  {
    assert TrimStart(t) == t;
    assert Spaced(t[n..]) == "";
    assert t[|t| - 1] == t[..n][n - 1];
  }

  /** A text that is a single word followed by whitespace. */
  lemma {:induction false} FirstWordThenSpace(t: string, n: nat)
    requires |t| > 0 && !IsWs(t[0]) && n == WordLen(t) && n < |t|
    requires TrimStart(t[n..]) == ""
    ensures Spaced(t) == t[..n] && EndSpace(t) == " "
  {
    assert TrimStart(t) == t;
    var rest := t[n..];
    assert Spaced(rest) == "";
    assert IsWs(rest[|rest| - 1]);
    EndSpaceSuffix(t, n);
  }

  /** A text starting with a word has a non-empty `Spaced`, and leading
      whitespace in front of it changes nothing. */
  lemma {:induction false} SpacedFromWord(s: string, t: string)
    requires t == TrimStart(s) && |t| > 0
    ensures Spaced(s) == Spaced(t) && |Spaced(t)| > 0
  {
    assert TrimStart(t) == t;
  }

  /** A non-empty suffix ends where the whole text ends. */
  lemma {:induction false} EndSpaceSuffix(s: string, k: nat)
    requires k < |s|
    ensures EndSpace(s[k..]) == EndSpace(s)
  {
    assert s[k..][|s| - k - 1] == s[|s| - 1];
  }

  /** A text made of a word, a whitespace run and more words. */
  lemma {:induction false} FirstWordThenMore(t: string, n: nat, t': string)
    requires |t| > 0 && !IsWs(t[0]) && n == WordLen(t) && n < |t|
    requires t' == TrimStart(t[n..]) && |t'| > 0
    ensures |t'| < |t| && !IsWs(t'[0])
    ensures Spaced(t) == t[..n] + " " + Spaced(t')
    ensures EndSpace(t) == EndSpace(t')
  {
    assert Spaced(t) == t[..n] + " " + Spaced(t') by {
      assert TrimStart(t) == t;
      SpacedFromWord(t[n..], t');
    }
    assert EndSpace(t) == EndSpace(t') by {
      EndSpaceSuffix(t, n);
      EndSpaceSuffix(t[n..], |t[n..]| - |t'|);
    }
  }

  /** Leading whitespace changes neither the words nor the end. */
  lemma {:induction false} LeadingWs(s: string)
    requires |s| > 0 && IsWs(s[0])
    ensures Spaced(TrimStart(s)) == Spaced(s)
    ensures |Spaced(s)| > 0 <==> |TrimStart(s)| > 0
    ensures |TrimStart(s)| > 0 ==> EndSpace(TrimStart(s)) == EndSpace(s)
    ensures |TrimStart(s)| == 0 || !IsWs(TrimStart(s)[0])
  {
    var t := TrimStart(s);
    if |t| > 0 {
      SpacedFromWord(s, t);
      assert EndSpace(t) == EndSpace(s) by {
        EndSpaceSuffix(s, |s| - |t|);
      }
    } else {
      assert Spaced(s) == "";
    }
  }

  /** `Spaced` is the list of words joined with a space. */
  lemma {:induction false} SpacedJoinsWords(s: string)
    ensures Spaced(s) == JoinWith(WsWords(s), ' ')
    decreases |s|
  {
    var t := TrimStart(s);
    if |t| > 0 {
      var n := WordLen(t);
      var w, ws := t[..n], WsWords(t[n..]);
      SpacedJoinsWords(t[n..]);
      WsWordsPlain(t[n..]);
      JoinPlainWords(ws);
      assert WsWords(s) == [w] + ws;
      if |ws| > 0 {
        JoinCons(w, ws, ' ');
      } else {
        assert [w] + ws == [w];
      }
    }
  }


  /** Leading whitespace is all `TrimStart` removes. */
  lemma {:induction false} TrimStartSkip(p: string, x: string)
    requires AllWs(p)
    ensures TrimStart(p + x) == TrimStart(x)
    decreases |p|
  {
    if |p| > 0 {
      assert (p + x)[1..] == p[1..] + x;
      TrimStartSkip(p[1..], x);
    } else {
      assert p + x == x;
    }
  }

  /** Once `x` has a non-whitespace character, `TrimStart` stops inside it. */
  lemma {:induction false} TrimStartKeep(x: string, y: string)
    requires |TrimStart(x)| > 0
    ensures TrimStart(x + y) == TrimStart(x) + y
    decreases |x|
  {
    HeadAssoc(x, y);
    if IsWs(x[0]) {
      TrimStartKeep(x[1..], y);
    }
  }

  /** Trailing whitespace is all `TrimEnd` removes. */
  lemma {:induction false} TrimEndSkip(x: string, q: string)
    requires AllWs(q)
    ensures TrimEnd(x + q) == TrimEnd(x)
    decreases |q|
  {
    if |q| > 0 {
      var q' := q[..|q| - 1];
      assert (x + q)[..|x + q| - 1] == x + q';
      TrimEndSkip(x, q');
    } else {
      assert x + q == x;
    }
  }

  /** `trim` of a piece framed by whitespace, where the piece itself neither
      starts nor ends with whitespace, is that piece. */
  lemma {:induction false} TrimFramed(p: string, n: string, q: string)
    requires AllWs(p) && AllWs(q)
    requires |n| > 0 ==> !IsWs(n[0]) && !IsWs(n[|n| - 1])
    ensures Trim(p + n + q) == n
  {
    assert p + n + q == p + (n + q);
    TrimStartSkip(p, n + q);
    if |n| > 0 {
      assert TrimStart(n + q) == n + q;
      TrimEndSkip(n, q);
      assert TrimEnd(n) == n;
    } else {
      assert n + q == q;
      assert TrimStart(q) == "";
    }
  }

  /** Words joined by a space neither start nor end with whitespace, and are
      empty only when there are no words. */
  lemma {:induction false} JoinPlainWords(words: seq<string>)
    requires PlainWords(words)
    ensures var j := JoinWith(words, ' ');
            && (|j| > 0 <==> |words| > 0)
            && (|j| > 0 ==> !IsWs(j[0]) && !IsWs(j[|j| - 1]))
  {
    if |words| > 1 {
      JoinPlainWords(words[1..]);
      var w, j := words[0], JoinWith(words[1..], ' ');
      assert !IsWs(w[0]);
      assert (w + [' '] + j)[0] == w[0];
    }
  }

  /** `s` with every maximal run of `c` replaced by a single `c`. */
  function Squeeze(s: string, c: char): string
    decreases |s|
  {
    if |s| == 0 then ""
    else if s[0] == c then [c] + Squeeze(DropLeading(s[1..], c), c)
    else [s[0]] + Squeeze(s[1..], c)
  }

  /** A prefix free of `c` passes through `Squeeze` unchanged. */
  lemma {:induction false} SqueezeFree(w: string, r: string, c: char)
    requires c !in w
    ensures Squeeze(w + r, c) == w + Squeeze(r, c)
    decreases |w|
  {
    if |w| > 0 {
      assert (w + r)[1..] == w[1..] + r;
      SqueezeFree(w[1..], r, c);
    } else {
      assert w + r == r;
    }
  }

  /** `Squeeze` at the first run of `c`: the piece before it, one `c`, then
      the squeezed text after the run. */
  lemma {:induction false} SqueezeAt(head: string, tail: string, c: char)
    requires c !in head
    ensures Squeeze(head + [c] + tail, c) == head + [c] + Squeeze(DropLeading(tail, c), c)
  {
    var x, y := [c] + tail, Squeeze(DropLeading(tail, c), c);
    ConsParts(c, tail);
    assert Squeeze(x, c) == [c] + y;
    SqueezeFree(head, x, c);
    Assoc3(head, [c], tail);
    Assoc3(head, [c], y);
  }

  /** Splitting a join gives the pieces back when no piece holds the
      separator: together with `Split`'s own contract, the pieces of a split
      are determined by their join. */
  lemma {:induction false} SplitJoin(parts: seq<string>, sep: char)
    requires |parts| >= 1
    requires forall k :: 0 <= k < |parts| ==> sep !in parts[k]
    ensures Split(JoinWith(parts, sep), sep) == parts
    decreases |parts|
  {
    if |parts| > 1 {
      var p, j := parts[0], JoinWith(parts[1..], sep);
      var s := p + [sep] + j;
      assert JoinWith(parts, sep) == s;
      assert s[..|p|] == p && s[|p|] == sep && s[|p| + 1..] == j;
      assert sep in s;
      var i := IndexOf(s, sep);
      assert i == |p|;
      SplitJoin(parts[1..], sep);
      assert Split(s, sep) == [p] + Split(j, sep);
      assert parts == [p] + parts[1..];
    } else {
      assert parts == [parts[0]];
    }
  }
}

=== FILE: tokens.dfy ===
/** The reader page's word stream (script.js:78-79): the stored text split on
    single spaces, with the empty pieces dropped. */
module Tokens {
  import opened Strings
  import Loader

  /** Every token is non-empty and holds no space. */
  predicate Words(ws: seq<string>) {
    forall k :: 0 <= k < |ws| ==> |ws[k]| > 0 && ' ' !in ws[k]
  }

  /** `parts.filter(Boolean)`: the non-empty pieces, in order. */
  function NonEmptyParts(parts: seq<string>): (r: seq<string>)
    ensures forall k :: 0 <= k < |r| ==> |r[k]| > 0
    ensures |r| <= |parts|
    ensures Concat(r) == Concat(parts)
  {
    if |parts| == 0 then []
    else
      var rest := NonEmptyParts(parts[1..]);
      if |parts[0]| == 0 then
        assert Concat(parts) == Concat(parts[1..]);
        rest
      else
        ConcatCons(parts[0], rest);
        [parts[0]] + rest
  }

  lemma {:induction false} NonEmptyPartsAppend(p: seq<string>, q: seq<string>)
    ensures NonEmptyParts(p + q) == NonEmptyParts(p) + NonEmptyParts(q)
  {
    if |p| == 0 {
      assert p + q == q;
    } else {
      assert (p + q)[1..] == p[1..] + q;
      NonEmptyPartsAppend(p[1..], q);
    }
  }

  /** `text.split(" ").filter(Boolean)` (script.js:79). */
  function Tokenize(text: string): (ws: seq<string>)
    ensures Words(ws)
  {
    var parts := Split(text, ' ');
    var ws := NonEmptyParts(parts);
    assert forall k :: 0 <= k < |ws| ==> ' ' !in ws[k] by {
      NonEmptyPartsFrom(parts);
    }
    ws
  }

  lemma {:induction false} NonEmptyPartsFrom(parts: seq<string>)
    ensures forall k :: 0 <= k < |NonEmptyParts(parts)| ==> NonEmptyParts(parts)[k] in parts
  {
    if |parts| > 0 {
      NonEmptyPartsFrom(parts[1..]);
    }
  }

  /** Tokenising keeps every non-space character, in order: the tokens,
      concatenated, are the text with its spaces removed. */
  lemma TokensKeepText(text: string)
    ensures Concat(Tokenize(text)) == Without(text, ' ')
  {
    ConcatSplit(text, ' ');
  }

  /** A text whose spaces are single separators between words. */
  predicate SpaceNormal(s: string) {
    (|s| > 0 ==> s[0] != ' ' && s[|s| - 1] != ' ') && Loader.NoDoubleSpace(s)
  }

  /** Tokenising a text that contains a space: the piece before the first space
      (when non-empty), then the tokens after it. */
  lemma TokenizeStep(s: string)
    requires ' ' in s
    ensures var i := IndexOf(s, ' ');
            Tokenize(s) == NonEmptyParts([s[..i]]) + Tokenize(s[i + 1..])
  {
    var i := IndexOf(s, ' ');
    var rest := Split(s[i + 1..], ' ');
    assert Split(s, ' ') == [s[..i]] + rest;
    NonEmptyPartsAppend([s[..i]], rest);
  }

  /** For a text in space-normal form, joining its tokens with single spaces
      gives the text back. */
  lemma {:induction false} JoinTokenize(s: string)
    requires SpaceNormal(s)
    ensures JoinWith(Tokenize(s), ' ') == s
    decreases |s|
  {
    if ' ' !in s {
      assert Split(s, ' ') == [s];
    } else {
      var i := IndexOf(s, ' ');
      var head, tail := s[..i], s[i + 1..];
      assert i > 0 && i + 1 < |s| && s[i + 1] != ' ';
      assert SpaceNormal(tail) by {
        forall j | 0 <= j < |tail| - 1
          ensures !(tail[j] == ' ' && tail[j + 1] == ' ')
        {
          assert tail[j] == s[i + 1 + j] && tail[j + 1] == s[i + 2 + j];
        }
      }
      TokenizeStep(s);
      assert NonEmptyParts([head]) == [head];
      JoinTokenize(tail);
      var rest := Tokenize(tail);
      assert |rest| > 0;
      assert ([head] + rest)[1..] == rest;
      assert s == head + [' '] + tail;
    }
  }

  /** Conversely, tokenising words joined with single spaces gives the words
      back. */
  lemma {:induction false} TokenizeJoin(ws: seq<string>)
    requires Words(ws)
    ensures Tokenize(JoinWith(ws, ' ')) == ws
  {
    if |ws| == 0 {
      assert Split("", ' ') == [""];
    } else if |ws| == 1 {
      assert Split(ws[0], ' ') == [ws[0]];
    } else {
      var s := JoinWith(ws, ' ');
      var tail := JoinWith(ws[1..], ' ');
      assert s == ws[0] + [' '] + tail;
      assert s[|ws[0]|] == ' ';
      assert s[..|ws[0]|] == ws[0];
      assert ' ' in s;
      FirstSpace(s, |ws[0]|);
      assert s[|ws[0]| + 1..] == tail;
      TokenizeStep(s);
      assert NonEmptyParts([ws[0]]) == [ws[0]];
      TokenizeJoin(ws[1..]);
      assert ws == [ws[0]] + ws[1..];
    }
  }

  /** A non-empty text without a space is a single token. */
  lemma TokenizeOneWord(w: string)
    requires |w| > 0 && ' ' !in w
    ensures Tokenize(w) == [w]
  {
    assert Split(w, ' ') == [w];
  }

  lemma FirstSpace(s: string, i: nat)
    requires i < |s| && s[i] == ' ' && ' ' !in s[..i]
    ensures IndexOf(s, ' ') == i
  {
  }

  /** Words cut at whitespace are tokens: non-empty and space-free. */
  lemma PlainWordsAreWords(ws: seq<string>)
    requires PlainWords(ws)
    ensures Words(ws)
  {
    forall k | 0 <= k < |ws|
      ensures ' ' !in ws[k]
    {
      assert IsWs(' ');
    }
  }

  /** The reader's tokens of a sanitised text are the words of the original
      text, cut at every whitespace character. */
  lemma {:induction false} TokenizeSanitized(text: string)
    ensures Tokenize(Loader.Sanitize(text)) == WsWords(text)
  {
    Loader.SanitizeJoinsWords(text);
    WsWordsPlain(text);
    PlainWordsAreWords(WsWords(text));
    TokenizeJoin(WsWords(text));
  }

  /** Every output of `sanitize` (the PDF path) round-trips: the reader's
      tokens, joined with single spaces, are exactly that text. */
  lemma SanitizedRoundTrip(text: string)
    ensures JoinWith(Tokenize(Loader.Sanitize(text)), ' ') == Loader.Sanitize(text)
  {
    var s := Loader.Sanitize(text);
    assert SpaceNormal(s);
    JoinTokenize(s);
  }
}

=== FILE: traces.dfy ===
/** Runs of the reader over sequences of user and timer events, and the
    properties that hold across a whole session: words are shown in order
    with no skip and no repeat, the position stays in range, and the stored
    progress always names the word on screen. */
module Traces {
  import opened Wrappers
  import opened Strings
  import Tokens
  import opened Pacing

  /** What can happen to a reader between two states: the pending timer
      fires, or the pause button is clicked. Each carries the speed and mode
      the controls hold at that moment. */
  datatype Event =
    | Tick(wpm: Wpm, mode: string)
    | Click(wpm: Wpm, mode: string)

  function Apply(s: State, e: Event): Step {
    match e
    case Tick(wpm, mode) => Fire(s, wpm, mode)
    case Click(wpm, mode) => Toggle(s, wpm, mode)
  }

  /** The final state of a run, and the words shown on the way, in order. */
  datatype Trace = Trace(state: State, shown: seq<string>)

  function ShownWord(o: Option<Frame>): seq<string> {
    if o.Some? then [o.value.word] else []
  }

  function Run(s: State, evs: seq<Event>): Trace
    decreases |evs|
  {
    if |evs| == 0 then Trace(s, [])
    else
      var st := Apply(s, evs[0]);
      var t := Run(st.state, evs[1..]);
      Trace(t.state, ShownWord(st.shown) + t.shown)
  }

  /** One event keeps the position in range and shows at most the word at the
      current position, advancing past it. */
  lemma ApplyAdvances(s: State, e: Event)
    requires s.index <= |s.words|
    ensures var st := Apply(s, e);
            && st.state.words == s.words
            && s.index <= st.state.index <= |s.words|
            && ShownWord(st.shown) == s.words[s.index..st.state.index]
  {
  }

  lemma SliceCons(ws: seq<string>, a: nat, c: nat)
    requires a < c <= |ws|
    ensures ws[a..c] == [ws[a]] + ws[a + 1..c]
  {
  }

  lemma SliceJoin(ws: seq<string>, a: nat, b: nat, c: nat)
    requires a <= b <= c <= |ws|
    ensures ws[a..c] == ws[a..b] + ws[b..c]
  {
  }

  /** From any start position within the words, every sequence of ticks and
      clicks keeps the position within the words, and the words shown are
      exactly the words from the start position to the final position, in
      order: none skipped, none repeated. */
  lemma {:induction false} RunShowsInOrder(s: State, evs: seq<Event>)
    requires s.index <= |s.words|
    ensures var t := Run(s, evs);
            && t.state.words == s.words
            && s.index <= t.state.index <= |s.words|
            && t.shown == s.words[s.index..t.state.index]
    decreases |evs|
  {
    if |evs| > 0 {
      var st := Apply(s, evs[0]);
      ApplyAdvances(s, evs[0]);
      RunShowsInOrder(st.state, evs[1..]);
      var t := Run(st.state, evs[1..]);
      assert Run(s, evs) == Trace(t.state, ShownWord(st.shown) + t.shown);
      SliceJoin(s.words, s.index, st.state.index, t.state.index);
    }
  }

  /** The stored progress and the progress bar agree with the position: once
      a word has been shown, the stored index is the index of the word on
      screen (one before the position) and the bar shows its percentage. */
  predicate Consistent(s: State) {
    && s.index <= |s.words|
    && match s.persisted
       case None => s.bar.None?
       case Some(p) => p + 1 == s.index && s.bar == Some(Percent(p, |s.words|))
  }

  lemma ApplyKeepsConsistent(s: State, e: Event)
    requires Consistent(s)
    ensures Consistent(Apply(s, e).state)
  {
  }

  /** Every run from a consistent state stays consistent; in particular the
      progress bar is never drawn at 100%, because the end of the words pauses
      without updating it. */
  lemma {:induction false} RunKeepsConsistent(s: State, evs: seq<Event>)
    requires Consistent(s)
    ensures Consistent(Run(s, evs).state)
    ensures Run(s, evs).state.bar.Some? ==> Run(s, evs).state.bar.value < 100.0
    decreases |evs|
  {
    if |evs| > 0 {
      ApplyKeepsConsistent(s, evs[0]);
      RunKeepsConsistent(Apply(s, evs[0]).state, evs[1..]);
    }
  }

  /** A freshly opened reader at a position within the words is consistent. */
  lemma OpenIsConsistent(text: string, start: nat)
    requires start <= |Tokens.Tokenize(text)|
    ensures Consistent(Open(text, start))
  {
  }

  /** Playing: running, with the next tick scheduled. */
  predicate Playing(s: State) {
    !s.paused && s.pending.Some? && s.index <= |s.words|
  }

  predicate AllTicks(evs: seq<Event>) {
    forall k :: 0 <= k < |evs| ==> evs[k].Tick?
  }

  lemma AllTicksTail(evs: seq<Event>)
    requires |evs| > 0 && AllTicks(evs)
    ensures AllTicks(evs[1..])
  {
    forall k | 0 <= k < |evs| - 1
      ensures evs[1..][k].Tick?
    {
      assert evs[1..][k] == evs[k + 1];
    }
  }

  /** While playing, a tick shows the word at the position and moves past it. */
  lemma TickShowsNext(s: State, e: Event)
    requires Playing(s) && e.Tick? && s.index < |s.words|
    ensures var st := Apply(s, e);
            && Playing(st.state) && st.state.words == s.words
            && st.state.index == s.index + 1
            && ShownWord(st.shown) == [s.words[s.index]]
  {
  }

  /** While playing, each timer tick shows exactly the next word and
      advances the position by exactly one, whatever the speed and mode the
      controls hold at each tick; the reader keeps playing. */
  lemma {:induction false} TicksAdvanceOneEach(s: State, evs: seq<Event>)
    requires Playing(s) && AllTicks(evs)
    requires s.index + |evs| <= |s.words|
    ensures var t := Run(s, evs);
            && Playing(t.state)
            && t.state.index == s.index + |evs|
            && t.shown == s.words[s.index..s.index + |evs|]
    decreases |evs|
  {
    if |evs| > 0 {
      var st := Apply(s, evs[0]);
      TickShowsNext(s, evs[0]);
      AllTicksTail(evs);
      TicksAdvanceOneEach(st.state, evs[1..]);
      var t := Run(st.state, evs[1..]);
      assert Run(s, evs) == Trace(t.state, ShownWord(st.shown) + t.shown);
      SliceCons(s.words, s.index, s.index + |evs|);
    }
  }

  /** The tick after the last word pauses the reader, shows nothing and
      schedules nothing. */
  lemma TickAtEndPauses(s: State, wpm: Wpm, mode: string)
    requires Playing(s) && s.index == |s.words|
    ensures var r := Fire(s, wpm, mode);
            r.state.paused && r.shown.None? && r.state.pending.None?
            && r.state.index == s.index && r.state.persisted == s.persisted
  {
  }

  /** Pausing and resuming shows the word after the last one shown, and the
      new timer uses the speed set at the moment of resuming. */
  lemma PauseThenResume(s: State, w1: Wpm, m1: string, w2: Wpm, m2: string)
    requires !s.paused && s.index < |s.words|
    ensures var paused := Toggle(s, w1, m1);
            var resumed := Toggle(paused.state, w2, m2);
            && paused.state.paused && paused.shown.None?
            && resumed.shown == Some(Frame(s.words[s.index], Render.RenderWord(s.words[s.index], m2)))
            && !resumed.state.paused
            && resumed.state.pending == Some(Delay(s.words[s.index], w2))
  {
  }

  /** The pause button is a toggle: clicking it twice while there is a word
      left does not leave the reader paused. */
  lemma PauseIsNotIdempotent(s: State, wpm: Wpm, mode: string)
    requires !s.paused && s.index < |s.words|
    ensures Toggle(s, wpm, mode).state.paused
    ensures !Toggle(Toggle(s, wpm, mode).state, wpm, mode).state.paused
  {
  }

  /** A speed change affects only the timer scheduled by the next tick: the
      word shown, the position and the stored progress do not depend on it. */
  lemma SpeedOnlyAffectsTimer(s: State, w1: Wpm, w2: Wpm, mode: string)
    ensures Next(s, w1, mode).shown == Next(s, w2, mode).shown
    ensures Next(s, w1, mode).state.(pending := None) == Next(s, w2, mode).state.(pending := None)
  {
  }

  /** A text with no words (empty, or nothing but spaces) pauses on the first
      call of `next`, without showing anything or writing any progress. */
  lemma EmptyTextPausesAtOnce(text: string, wpm: Wpm, mode: string)
    requires Without(text, ' ') == ""
    ensures var r := Start(text, 0, wpm, mode);
            r.state.paused && r.shown.None? && r.state.persisted.None? && r.state.bar.None?
  {
    Tokens.TokensKeepText(text);
  }

  /** A stored position past the end is not clamped: the first call of `next`
      pauses without showing anything. */
  lemma StartPastEndPauses(text: string, start: nat, wpm: Wpm, mode: string)
    requires start > |Tokens.Tokenize(text)|
    ensures var r := Start(text, start, wpm, mode);
            r.state.paused && r.shown.None? && r.state.index == start
  {
  }

  /** Resuming from a stored position shows the word at that position first. */
  lemma StartResumesAtStoredIndex(text: string, start: nat, wpm: Wpm, mode: string)
    requires start < |Tokens.Tokenize(text)|
    ensures var r := Start(text, start, wpm, mode);
            && r.shown.Some? && r.shown.value.word == Tokens.Tokenize(text)[start]
            && r.state.index == start + 1 && r.state.persisted == Some(start)
  {
  }

  /** Only spaces separate tokens: a line break in pasted text glues its
      neighbours into one token, which then ends in no sentence mark. */
  lemma LineBreakGluesWords()
    ensures Tokens.Tokenize("end.\nNext") == ["end.\nNext"]
    ensures !IsSentenceEnd("end.\nNext")
  {
    Tokens.TokenizeOneWord("end.\nNext");
  }

  /** The six words of "Hello world. This is a test". */
  lemma HelloWorldTokens()
    ensures Tokens.Tokenize("Hello world. This is a test")
         == ["Hello", "world.", "This", "is", "a", "test"]
  {
    var ws := ["Hello", "world.", "This", "is", "a", "test"];
    HelloWorldJoined();
    assert Tokens.Words(ws) by {
      forall k | 0 <= k < |ws|
        ensures |ws[k]| > 0 && ' ' !in ws[k]
      {
      }
    }
    Tokens.TokenizeJoin(ws);
  }

  lemma HelloWorldJoined()
    ensures JoinWith(["Hello", "world.", "This", "is", "a", "test"], ' ')
         == "Hello world. This is a test"
  {
    JoinCons("a", ["test"], ' ');
    JoinCons("is", ["a", "test"], ' ');
    JoinCons("This", ["is", "a", "test"], ' ');
    JoinCons("world.", ["This", "is", "a", "test"], ' ');
    JoinCons("Hello", ["world.", "This", "is", "a", "test"], ' ');
  }

  /** At 300 words per minute: 200 ms after "Hello", 440 ms after "world.". */
  lemma HelloWorldDelays()
    ensures Delay("Hello", 300) == 200.0
    ensures Delay("world.", 300) == 440.0
  {
    assert !IsSentenceEnd("Hello");
    assert IsSentenceEnd("world.");
  }
}

=== FILE: wrappers.dfy ===
/** The optional-value datatype used across the model. */
module Wrappers {

  /** `None` plays the role of JavaScript's `null` / `undefined`. */
  datatype Option<+T> = None | Some(value: T)
}
